=== FILE: README.md ===
# Offline-first todo sync, modelled in Dafny

This project models the synchronisation core of a React Native todo client.
The client keeps an ordered list of todos on screen. It mirrors that list into
device storage under the key `TODOS`. Mutations it could not send are kept in a
durable first-in first-out queue under the key `OFFLINE_QUEUE`. It also applies
real-time `add`/`update`/`delete` events pushed by other clients.

Everything is a pure state transition over immutable data:

- `Todo` is the record, with `defaultTodo`'s defaults (`todo.dfy`).
- The list operations keyed by `id` are shared by both client versions (`todo_list.dfy`).
- `Action` is `Add(todo)`, `Update(todo)` or `Delete(id)` (`actions.dfy`).
- Storage is a record with one optional slot per key (`storage.dfy`).
- The queue has append, read, clear and drain (`offline_queue.dfy`).
- The real-time handlers are shared by both client versions (`realtime.dfy`).
- The offline-first client is `frontend/App.js` (`offline_app.dfy`).
- The earlier online-only client is `App.js` (`online_app.dfy`).
- Multi-step scenarios (`scenarios.dfy`): a restart after an offline add, with the loader and the mount-time drain racing; a stale echo; and agreement of the two clients.
- String handling for the add form (`text.dfy`): `trim`, `split(',')`, and tag parsing.

Connectivity is a pair of booleans (`isOnline`, `isBackendAvailable`).
Remote calls are an oracle:

- A local intent receives a `Server`, a function from the request (an `Action`) to `Ok(todo)` or `Err`.
- A drain receives a `DrainServer` whose answer may also depend on the call's position in the drain.
- A fetch receives its result directly, as `Ok(list)` or `Err`.

Both clients behave as written, including these points:

- An online add, toggle or delete whose remote call fails changes nothing. It also queues nothing.
- The drain clears the whole queue even when every replayed call failed, because each failure is caught inside the processor.
- The drain writes to the cache the `todos` captured by the effect, the list of the render that scheduled it. Updates the drain applied through `setTodos(prev => …)` are not in that write. At mount that list is empty.
- A fetch failure with no cache keeps the current list in `frontend/App.js`. In `App.js` it sets the list to empty.

Several behaviours of the code are worth stating on their own, because an
offline-first client is often expected to do otherwise:

- A pending local change gets no precedence over a later real-time update. `Scenarios.StaleEchoOverridesPendingToggle` proves that the stale copy is shown while the toggle is still queued.
- An online add shows nothing until the server answers, and a failed call is dropped. It is not applied optimistically and it is not queued.
- A failed action does not stay queued for the next drain: `processQueue` clears the queue after every drain.
- Every failing call is caught and handled the same way: the model's `Err`. Nothing distinguishes one kind of failure from another.
- Both connectivity signals start up at mount, so the drain runs at every start-up whatever the real connectivity. With the backend unreachable, that drain clears the queue and caches the empty list the mount captured. An item added offline therefore does not survive a restart with the backend unreachable. `Scenarios.RestartDrainFirst` and `Scenarios.RestartLoaderFirst` state the start-up for both orders in which the loader and the drain can finish, and `Scenarios.OfflineAddLostWhenDrainFirst` and `Scenarios.OfflineAddLostWhenLoaderFirst` apply them to an offline add.

## Model

| member | source | states |
|---|---|---|
| `Text.Trim` | frontend/App.js:89-90 | `trim` returns a string with no white space at either end, sitting in the input with only white space around it |
| `Text.TrimUnique` | frontend/App.js:89-90 | any trimmed string framed by white space in the input equals `trim` of it, so the contract of `Trim` fixes its result |
| `Text.TrimEmptyIffBlank` | frontend/App.js:87 | `input.trim()` is empty exactly when the input is all white space, which is the blank-input guard |
| `Text.TrimIdempotent` | frontend/App.js:89-90 | trimming a trimmed string changes nothing |
| `Text.Split` | frontend/App.js:95 | `split(',')` yields at least one piece and no piece contains a comma |
| `Text.JoinSplit` | frontend/App.js:95 | joining the pieces of `split` with the separator gives back the input |
| `Text.SplitJoin` | frontend/App.js:95 | splitting a join of comma-free pieces gives back the pieces |
| `Text.TrimAll` | frontend/App.js:95 | `.map(t => t.trim())` keeps the number of pieces and trims each piece in place |
| `Text.NonEmpty` | frontend/App.js:95 | `filter(Boolean)` keeps exactly the non-empty strings |
| `Text.NonEmptyConcat` | frontend/App.js:95 | `filter(Boolean)` distributes over concatenation; with the membership contract, which fixes one-piece inputs, this fixes the order and the repetitions of the kept pieces |
| `Text.SplitAt` | frontend/App.js:95 | splitting a string at a separator gives the pieces of the left side followed by the pieces of the right side |
| `Text.JoinConcat` | frontend/App.js:95 | joining two non-empty lists of pieces puts exactly one separator between their joins |
| `Text.ParseTags` | frontend/App.js:95 | no parsed tag is empty, has white space at an end, or contains a comma |
| `Text.ParseTagsConcat` | frontend/App.js:95 | the tags of `a,b` are the tags of `a` followed by the tags of `b`, so tag order and repeated tags are kept |
| `Text.ParseTagsPiece` | frontend/App.js:95 | a comma-free string gives exactly one tag, its trim, unless it is blank, when it gives none; with `ParseTagsConcat` this fixes the result for every input |
| `Text.ParseTagsFromPieces` | frontend/App.js:95 | every tag is the trim of some comma-separated piece of the input |
| `Text.PiecesToParseTags` | frontend/App.js:95 | the trim of every non-blank piece appears among the tags |
| `TodoModel.ParsePriority` | frontend/models/Todo.js:8 | a priority string is accepted exactly when it is one of `low`, `medium`, `high` |
| `TodoModel.PriorityRoundTrip` | frontend/models/Todo.js:8 | priority names and priorities correspond one to one |
| `TodoModel.DefaultTodo` | frontend/models/Todo.js:15-25 | the default todo is not done, has priority `medium`, an empty description, no tags, no due date, and empty id, text and timestamps |
| `TodoList.HasId` | frontend/App.js:200 | `some(t => t.id === id)`: some listed item carries the id |
| `TodoList.HasIdInIds` | frontend/App.js:200 | an id is present exactly when it occurs in the list's id sequence |
| `TodoList.Find` | frontend/App.js:122-123 | `find` by id returns nothing exactly when no item has the id, and otherwise the first item carrying it |
| `TodoList.FindUnique` | frontend/App.js:122 | with unique ids, `find` returns the one item with that id |
| `TodoList.ReplaceById` | frontend/App.js:126 | the id-keyed `map` keeps length and order, replaces every item with the id and leaves all others untouched |
| `TodoList.ReplaceByIdAbsent` | frontend/App.js:208 | replacing an id that is not listed changes nothing |
| `TodoList.ReplaceByIdKeepsIds` | App.js:109 | replacing with an item of the same id keeps the id sequence, hence id uniqueness |
| `TodoList.ReplaceByIdIdempotent` | App.js:107-113 | replacing twice with the same item equals replacing once |
| `TodoList.ReplaceByIdUndo` | frontend/App.js:208 | with unique ids, putting back the old item undoes a replacement |
| `TodoList.RemoveById` | frontend/App.js:145 | the id-keyed `filter` keeps exactly the items without the id |
| `TodoList.RemoveByIdConcat` | frontend/App.js:145 | filtering distributes over concatenation, so survivors keep their relative order |
| `TodoList.RemoveByIdAbsent` | frontend/App.js:215 | removing an id that is not listed changes nothing |
| `TodoList.RemoveByIdIdempotent` | App.js:116-122 | removing an id twice equals removing it once |
| `TodoList.RemoveByIdUnique` | frontend/App.js:145 | filtering keeps ids unique |
| `TodoList.UniqueCons` | frontend/App.js:200-201 | prepending keeps ids unique exactly when the new id is not already listed |
| `OfflineQueue.GetQueue` | frontend/api/offlineQueue.js:5-8 | reading the queue gives the stored sequence, or the empty sequence when the key is absent |
| `OfflineQueue.AddToQueue` | frontend/api/offlineQueue.js:10-14 | reading after an append gives the old queue followed by the action: length grows by one, earlier actions stay in order, the cached list is untouched |
| `OfflineQueue.ClearQueue` | frontend/api/offlineQueue.js:16-18 | reading after a clear gives the empty queue; the cached list is untouched |
| `OfflineQueue.ProcessQueue` | frontend/api/offlineQueue.js:20-26 | the processor receives each stored action once, in stored order, and an empty queue means no calls; afterwards the queue is empty, whatever state the processor returned |
| `OfflineQueue.ReplayConcat` | frontend/api/offlineQueue.js:22-24 | processing two queues one after the other equals processing their concatenation |
| `OfflineQueue.AppendThenReplay` | frontend/api/offlineQueue.js:10-24 | an appended action is read back last and is handed to the processor after all earlier ones |
| `Client.Commit` | frontend/App.js:153-155 | publishing a list sets it on screen and in the cache and leaves the queue alone |
| `Realtime.HandleRemoteAdd` | frontend/App.js:198-205 | a remote add is a no-op when the id is listed, and otherwise prepends and caches the todo; the id is listed afterwards and id uniqueness is kept |
| `Realtime.HandleRemoteUpdate` | frontend/App.js:206-212 | a remote update keeps the id sequence, replaces only items with the incoming id, keeps uniqueness and caches the result |
| `Realtime.HandleRemoteDelete` | frontend/App.js:213-219 | after a remote delete no item has the id, every other item is kept, uniqueness is kept and the result is cached |
| `Realtime.RemoteAddIdempotent` | App.js:97-104 | delivering the same remote add twice equals delivering it once |
| `Realtime.RemoteDeleteIdempotent` | App.js:116-122 | delivering the same remote delete twice equals delivering it once |
| `Realtime.RemoteDeleteKeepsOrder` | frontend/App.js:215 | a remote delete keeps the survivors in their relative order |
| `Realtime.RemoteUpdateAbsentAndIdempotent` | App.js:107-113 | a remote update for an unlisted id leaves the list alone, and applying an update twice equals applying it once |
| `Realtime.DeleteSuppressesLateUpdate` | frontend/App.js:206-219 | an update arriving after a delete of the same id finds nothing, and the item stays gone |
| `Realtime.ConcurrentAddsConverge` | frontend/App.js:198-205 | two clients that each add a fresh item and then receive the other's add hold the same items, each once |
| `OfflineApp.CanSync` | frontend/App.js:164 | remote calls are attempted only when the device is online and the backend is available; the same test guards add, toggle and delete at lines 104, 125 and 144 |
| `OfflineApp.OnlineSignal` | frontend/App.js:45-47 | the device counts as online when connected and reachability is not reported as false |
| `OfflineApp.NewTodo` | frontend/App.js:88-96 | a new todo has the given id, is not done, has trimmed text and description, keeps the chosen priority, has a due date exactly when one was typed, and has the parsed tags |
| `OfflineApp.HandleAddTodo` | frontend/App.js:86-119 | blank input changes nothing. Offline, the new todo is prepended and cached and one `Add` is queued. Online, the server's copy is prepended and cached. A failed call changes nothing. Online, nothing is ever queued |
| `OfflineApp.Toggled` | frontend/App.js:124 | toggling flips `done` and changes no other field |
| `OfflineApp.HandleToggleTodo` | frontend/App.js:121-141 | an unknown id changes nothing. Offline, items with the id become the flipped first match, the list is cached and one `Update` is queued. Online, they become the server's copy. A failed call changes nothing. Other items never change |
| `OfflineApp.HandleDeleteTodo` | frontend/App.js:143-160 | offline, no item keeps the id, the rest remain and are cached, and one `Delete` is queued. Online, the same happens once confirmed, with nothing queued. A failed call changes nothing |
| `OfflineApp.ReplayAction` | frontend/App.js:166-189 | a confirmed add puts the server's copy first and no local item keeps the queued id. A confirmed update replaces items with the returned id. A confirmed delete is the id-keyed filter, keeping the survivors in order. A failure changes nothing. Id uniqueness is kept |
| `OfflineApp.Drained` | frontend/App.js:166-190 | replaying a queue makes exactly one server call per queued action |
| `OfflineApp.DrainedAppend` | frontend/App.js:166-190 | an action appended to the queue is replayed last, on the list the earlier actions left, with the answer to the call numbered by their count |
| `OfflineApp.FailedDrainKeepsList` | frontend/App.js:166-190 | a drain in which every call fails leaves the list unchanged |
| `OfflineApp.DrainKeepsIdsUnique` | frontend/App.js:166-190 | a drain keeps ids unique when confirmed adds come back under their queued ids |
| `OfflineApp.DrainedIsReplay` | frontend/App.js:166 | the drain is the queue's generic replay with the drain's processor |
| `OfflineApp.DrainQueue` | frontend/App.js:163-195 | without connectivity nothing happens. Otherwise every queued action is sent in order, the list becomes the replay of the queue, the queue is emptied, and the cache receives the list the effect captured when it was scheduled, not the drained list |
| `OfflineApp.FetchAndSyncTodos` | frontend/App.js:73-84 | a fetched list is shown and cached. On failure, the cached list is shown if there is one, and otherwise nothing changes. Storage is never altered by a failure |
| `OfflineApp.OfflineToggleFlipsOnlyDone` | frontend/App.js:121-129 | with unique ids, an offline toggle flips `done` on exactly the matching item, keeps ids unique and queues the flipped item |
| `OfflineApp.OfflineToggleTwiceRestores` | frontend/App.js:121-129 | toggling the same item twice offline restores the list |
| `OfflineApp.OfflineToggleTwiceQueues` | frontend/App.js:121-129 | toggling the same item twice offline queues the flipped item and then the original, in that order |
| `OfflineApp.OfflineToggleReplaces` | frontend/App.js:121-129 | with unique ids, an offline toggle of the k-th item is the id-keyed replacement by its flipped copy, keeps ids unique and queues that copy |
| `OfflineApp.AddKeepsIdsUnique` | frontend/App.js:104-113 | an add keeps ids unique when the new id and the server's id are fresh |
| `OfflineApp.ToggleKeepsIdsUnique` | frontend/App.js:121-137 | a toggle keeps ids unique when the server answers under the same id |
| `OfflineApp.DeleteKeepsOrder` | frontend/App.js:143-155 | a delete keeps ids unique and keeps the survivors in their relative order |
| `OnlineApp.NewTodo` | App.js:53-58 | the request todo has trimmed text, the given id and is not done |
| `OnlineApp.AddTodo` | App.js:51-69 | blank input or a failed call changes nothing. Otherwise the server's copy is prepended and cached. The queue key is never touched |
| `OnlineApp.ToggleTodo` | App.js:72-83 | an unknown id or a failed call changes nothing. On success only items with the id are replaced, by the server's answer, and the list is cached |
| `OnlineApp.DeleteTodo` | App.js:86-94 | a failed call changes nothing. A confirmed delete removes every item with the id, keeps the rest and caches them |
| `OnlineApp.DeleteKeepsOrder` | App.js:86-89 | a confirmed delete keeps the survivors in their relative order |
| `OnlineApp.FetchAndSyncTodos` | App.js:37-48 | a fetched list is shown and cached. On failure the cached list is shown, or the empty list when nothing is cached |
| `OnlineApp.FailedLoadShowsCommitted` | App.js:37-48 | after a list is published, a failed load shows that list, both on the same screen and after a restart |
| `Scenarios.RestartDrainFirst` | frontend/App.js:35-36 | a start-up with the backend unreachable runs the drain anyway, because both signals start up; when the drain finishes before the loader falls back to the cache, the list, the queue and the cache all end empty, whatever storage held |
| `Scenarios.RestartLoaderFirst` | frontend/App.js:163-195 | in the same start-up, when the loader reads the cache first, the cached list is shown, but the queue and the cache end empty, so a further such start-up shows nothing |
| `Scenarios.OfflineAddLostWhenDrainFirst` | frontend/App.js:104-108 | an item added offline is gone after a restart with the backend unreachable in which the drain finishes first, and it is neither queued nor cached |
| `Scenarios.OfflineAddLostWhenLoaderFirst` | frontend/App.js:104-108 | when the loader finishes first, the item added offline is shown but is neither queued nor cached, and the next such restart shows nothing |
| `Scenarios.OfflineAddConfirmedAfterRestart` | frontend/App.js:163-195 | after an offline add and a restart whose loader falls back to the cache before the mount-time drain confirms the add, the server's copy is first and the optimistic copy is gone, the queue is empty and the cache holds the empty list the mount captured |
| `Scenarios.StaleEchoOverridesPendingToggle` | frontend/App.js:206-212 | a stale remote update after an offline toggle shows the stale item again while the toggle stays queued |
| `Scenarios.ConfirmedToggleWins` | frontend/App.js:177-180 | a drain that confirms a queued toggle shows the toggled item again |
| `Scenarios.OnlineBranchesAgree` | frontend/App.js:110-159 | with the backend reachable, the offline-first client's toggle and delete equal the earlier client's, and so does its add when the server answers alike |
| `Scenarios.FailedDrainDropsActions` | frontend/App.js:166-192 | a drain whose every call fails empties the queue and leaves the list as it was, so the queued actions are lost |

## Left out

- Rendering, styles, navigation, the add modal, the drawer and the floating button are presentation only.
- The form reset after an add (`setInput('')` and the like), modal visibility and keyboard dismissal are screen state.
- The `loading` and `refreshing` flags are screen state. `handleRefresh` only calls the loader.
- The HTTP wrappers in `api/api.js` and the backend routes are not modelled. Every remote call is an oracle answering `Ok` or `Err`, and the backend's storage, sorting and validation are not modelled.
- The backend health probe every 5 seconds is not modelled. `isBackendAvailable` is an input.
- The network listener subscription is not modelled. Only its reading is, as `OfflineApp.OnlineSignal`.
- Socket connection and `emit` calls are network output with no effect on local state. Only the handlers they trigger are modelled.
- `Date.now()` id generation is not modelled: the id is a parameter.
- `new Date(dueDate)` parsing is not modelled: the due date is the raw input string.
- JSON serialisation is taken to round-trip. The conversion of a `Date` to a string on storage is not modelled.
- Asynchronous interleaving is modelled only at start-up, as the two orders in which the loader and the mount-time drain can finish. Elsewhere a drain's `setTodos(prev => …)` updates are applied one after another with no other event in between. The drain is modelled as one run of the effect, not as the React dependency tracking that schedules it.
- `OfflineQueue.ProcessQueue`: the processor is taken never to reject. `processQueue` has no `try`, so a rejecting processor would end the loop before `clearQueue` and leave the queue stored. The only processor, the drain's, catches the failure in each of its branches.
- `OfflineApp.DrainQueue`: the cache write after a drain is the list the effect captured, a parameter. Which render that is depends on React's scheduling, which is not modelled. Nothing is claimed about the cache equalling the drained list.
- A successful reply is assumed to carry a todo. The backend answers an update of a missing id with `null` (backend/routes/todos.js:31-32). The drain's update then hands React an updater that reads `newTodo.id`. React runs that updater outside the `try`, so the `catch` at frontend/App.js:182 does not see the error. The online toggle puts `null` into the list and caches it. A `null` body is not modelled. The backend confirms a delete of a missing id, which the model allows as an `Ok` reply.
- Storage calls are assumed to succeed. The offline branches of add, toggle and delete have no `try`, so a rejected `setItem` would leave the change on screen but not queued. In `fetchAndSyncTodos` a rejected `setItem` after a successful fetch falls into the `catch` and shows the cached list in place of the fetched one. Neither path is modelled.
- `OnlineApp.NewTodo`: the earlier client sends only `text`, `done` and `id`. Its other fields are given their defaults here. They have no effect on the model, because the state takes the server's copy.
- `TodoModel.ParsePriority`: the clients hold the priority as a string chosen from the three values. The record stores it as an enumeration, and the strings are related to it by `PriorityName`/`ParsePriority`.
- `createdAt` and `updatedAt` are modelled as strings. An absent timestamp is represented by the empty string, as in the default todo.

=== FILE: actions.dfy ===
/** A pending mutation, and the remote service that confirms it. */
module Actions {
  import opened Wrappers
  import opened TodoModel

  /** One queued mutation: create a todo, replace a todo by id, or delete
      an id. The same three shapes are the requests the client sends to the
      remote service. */
  datatype Action = Add(todo: Todo) | Update(todo: Todo) | Delete(id: string)

  /** The remote service's answer to one request: the saved todo for a
      create or an update, any `Ok` for a delete (its body is ignored), or
      `Err` when the call fails. */
  type Server = Action -> Reply<Todo>
}

=== FILE: client.dfy ===
/** The state one client session holds: the todo list on screen and the
    device storage behind it. */
module Client {
  import opened Wrappers
  import opened TodoModel
  import opened Storage
  import opened OfflineQueue

  datatype State = State(todos: seq<Todo>, store: Storage)

  /** Publishes a new list and writes it to the cache key, as every
      successful mutation does; the pending queue is untouched. */
  function Commit(st: State, todos: seq<Todo>): (r: State)
    ensures r.todos == todos && r.store.todosEntry == Some(todos)
    ensures GetQueue(r.store) == GetQueue(st.store)
  {
    State(todos, st.store.(todosEntry := Some(todos)))
  }
}

=== FILE: offline_app.dfy ===
/** The offline-first client: local intents with an online and an offline
    branch, the queue drain run when connectivity returns, and the loader
    that falls back to the cache. */
module OfflineApp {
  import opened Wrappers
  import opened Text
  import opened TodoModel
  import opened TodoList
  import opened Actions
  import opened Storage
  import opened OfflineQueue
  import opened Client

  /** The two connectivity signals: device network and backend liveness. */
  datatype Connectivity = Connectivity(isOnline: bool, isBackendAvailable: bool)

  /** Both signals start up at mount, before the network listener or the
      backend probe has reported anything. */
  const StartUp := Connectivity(true, true)

  /** Remote calls are attempted only when both signals are up. */
  predicate CanSync(c: Connectivity) {
    c.isOnline && c.isBackendAvailable
  }

  /** The network listener's reading: connected, and reachability not
      reported as false (an unknown reachability counts as reachable). */
  function OnlineSignal(isConnected: bool, isInternetReachable: Option<bool>): (online: bool)
    ensures online ==> isConnected
    ensures isInternetReachable == Some(false) ==> !online
    ensures isConnected && isInternetReachable.None? ==> online
    ensures isConnected && isInternetReachable == Some(true) ==> online
  {
    isConnected && isInternetReachable != Some(false)
  }

  /** The add form's fields as typed: text, description, due date, the
      chosen priority and a comma-separated tag string. */
  datatype Draft = Draft(input: string, description: string, dueDate: string, priority: Priority, tags: string)

  /** The todo built from a non-blank draft; fields the form does not set
      keep their defaults. */
  function NewTodo(d: Draft, id: string): (t: Todo)
    ensures t.id == id && !t.done && t.priority == d.priority
    ensures t.text == Trim(d.input) && IsTrimmed(t.text)
    ensures t.description == Trim(d.description) && IsTrimmed(t.description)
    ensures t.dueDate.None? <==> d.dueDate == []
    ensures t.dueDate.Some? ==> t.dueDate.value == d.dueDate
    ensures t.tags == ParseTags(d.tags)
    ensures forall tag :: tag in t.tags ==> tag != [] && IsTrimmed(tag) && ',' !in tag
    ensures t.createdAt == DefaultTodo().createdAt && t.updatedAt == DefaultTodo().updatedAt
  {
    DefaultTodo().(
      id := id,
      text := Trim(d.input),
      description := Trim(d.description),
      dueDate := if d.dueDate == [] then None else Some(d.dueDate),
      priority := d.priority,
      tags := ParseTags(d.tags))
  }

  /** Adding a todo. A blank input changes nothing. Offline, the new todo is
      prepended, cached and queued. Online, the server's copy is prepended
      and cached; a failed call changes nothing and queues nothing. */
  function HandleAddTodo(st: State, conn: Connectivity, d: Draft, id: string, server: Server): (r: State)
    ensures Trim(d.input) == [] ==> r == st
    ensures Trim(d.input) != [] && !CanSync(conn) ==>
      && |r.todos| == |st.todos| + 1
      && r.todos[0] == NewTodo(d, id) && r.todos[1..] == st.todos
      && r.store.todosEntry == Some(r.todos)
      && GetQueue(r.store) == GetQueue(st.store) + [Add(NewTodo(d, id))]
    ensures CanSync(conn) ==> GetQueue(r.store) == GetQueue(st.store)
    ensures Trim(d.input) != [] && CanSync(conn) && server(Add(NewTodo(d, id))).Err? ==> r == st
    ensures Trim(d.input) != [] && CanSync(conn) && server(Add(NewTodo(d, id))).Ok? ==>
      && |r.todos| == |st.todos| + 1
      && r.todos[0] == server(Add(NewTodo(d, id))).value && r.todos[1..] == st.todos
      && r.store.todosEntry == Some(r.todos)
  {
    if Trim(d.input) == [] then st
    else
      var todo := NewTodo(d, id);
      if !CanSync(conn) then
        var todos := [todo] + st.todos;
        State(todos, AddToQueue(st.store.(todosEntry := Some(todos)), Add(todo)))
      else
        match server(Add(todo))
        case Ok(saved) => Commit(st, [saved] + st.todos)
        case Err => st
  }

  /** The item with its completion flag flipped. */
  function Toggled(t: Todo): (u: Todo)
    ensures u.done != t.done && u.(done := t.done) == t
  {
    t.(done := !t.done)
  }

  /** Toggling a todo. An unknown id changes nothing. Otherwise the first
      item with the id, flipped, is the update: offline it replaces every
      item with that id, is cached and is queued; online the server's copy
      replaces them and is cached, and a failed call changes nothing. */
  function HandleToggleTodo(st: State, conn: Connectivity, id: string, server: Server): (r: State)
    ensures !HasId(st.todos, id) ==> r == st
    ensures |r.todos| == |st.todos|
    ensures forall i :: 0 <= i < |st.todos| && st.todos[i].id != id ==> r.todos[i] == st.todos[i]
    ensures CanSync(conn) ==> GetQueue(r.store) == GetQueue(st.store)
    ensures HasId(st.todos, id) && !CanSync(conn) ==>
      var u := Toggled(Find(st.todos, id).value);
      && (forall i :: 0 <= i < |st.todos| && st.todos[i].id == id ==> r.todos[i] == u)
      && r.store.todosEntry == Some(r.todos)
      && GetQueue(r.store) == GetQueue(st.store) + [Update(u)]
    ensures HasId(st.todos, id) && CanSync(conn) ==>
      match server(Update(Toggled(Find(st.todos, id).value)))
      case Err => r == st
      case Ok(saved) =>
        && (forall i :: 0 <= i < |st.todos| && st.todos[i].id == id ==> r.todos[i] == saved)
        && r.store.todosEntry == Some(r.todos)
  {
    match Find(st.todos, id)
    case None => st
    case Some(t) =>
      var u := Toggled(t);
      if !CanSync(conn) then
        var todos := ReplaceById(st.todos, id, u);
        State(todos, AddToQueue(st.store.(todosEntry := Some(todos)), Update(u)))
      else
        match server(Update(u))
        case Ok(saved) => Commit(st, ReplaceById(st.todos, id, saved))
        case Err => st
  }

  /** Deleting a todo. Offline, every item with the id is removed, the rest
      are cached and the delete is queued, even for an unknown id. Online, a
      confirmed delete removes and caches; a failed call changes nothing. */
  function HandleDeleteTodo(st: State, conn: Connectivity, id: string, server: Server): (r: State)
    ensures !CanSync(conn) || server(Delete(id)).Ok? ==>
      && !HasId(r.todos, id)
      && (forall t :: t in r.todos <==> t in st.todos && t.id != id)
      && r.store.todosEntry == Some(r.todos)
    ensures !CanSync(conn) ==> GetQueue(r.store) == GetQueue(st.store) + [Delete(id)]
    ensures CanSync(conn) ==> GetQueue(r.store) == GetQueue(st.store)
    ensures CanSync(conn) && server(Delete(id)).Err? ==> r == st
  {
    var todos := RemoveById(st.todos, id);
    if !CanSync(conn) then
      State(todos, AddToQueue(st.store.(todosEntry := Some(todos)), Delete(id)))
    else
      match server(Delete(id))
      case Ok(_) => Commit(st, todos)
      case Err => st
  }

  /** Replays one queued action against the list, given the server's answer:
      a confirmed add drops every local item with the queued id and puts the
      server's copy first; a confirmed update replaces the items carrying the
      returned id; a confirmed delete removes the id; a failure changes
      nothing. */
  function ReplayAction(todos: seq<Todo>, a: Action, reply: Reply<Todo>): (r: seq<Todo>)
    ensures reply.Err? ==> r == todos
    ensures a.Add? && reply.Ok? ==>
      && |r| >= 1 && r[0] == reply.value
      && r[1..] == RemoveById(todos, a.todo.id) && !HasId(r[1..], a.todo.id)
    ensures a.Update? && reply.Ok? ==>
      && Ids(r) == Ids(todos)
      && (forall i :: 0 <= i < |todos| && todos[i].id != reply.value.id ==> r[i] == todos[i])
      && (forall i :: 0 <= i < |todos| && todos[i].id == reply.value.id ==> r[i] == reply.value)
    ensures a.Delete? && reply.Ok? ==>
      !HasId(r, a.id) && (forall t :: t in r <==> t in todos && t.id != a.id) && r == RemoveById(todos, a.id)
    ensures UniqueIds(todos) && (a.Add? && reply.Ok? ==> reply.value.id == a.todo.id) ==> UniqueIds(r)
  {
    match reply
    case Err => todos
    case Ok(saved) =>
      match a
      case Add(t) =>
        var rest := RemoveById(todos, t.id);
        RemoveByIdUnique(todos, t.id);
        UniqueCons(saved, rest);
        assert ([saved] + rest)[1..] == rest;
        [saved] + rest
      case Update(_) =>
        ReplaceByIdKeepsIds(todos, saved.id, saved);
        ReplaceById(todos, saved.id, saved)
      case Delete(id) =>
        RemoveByIdUnique(todos, id);
        RemoveById(todos, id)
  }

  /** The server during a drain: its answer to the `n`-th call, `n`
      counting from 0, may depend on `n`. */
  type DrainServer = (nat, Action) -> Reply<Todo>

  /** The list being rebuilt by a drain and the number of calls made. */
  datatype Drain = Drain(todos: seq<Todo>, calls: nat)

  /** The drain's processor: one server call per action. */
  function DrainStep(d: Drain, a: Action, server: DrainServer): Drain {
    Drain(ReplayAction(d.todos, a, server(d.calls, a)), d.calls + 1)
  }

  /** The effect of replaying `q` in order. The `k`-th action is sent as the
      `k`-th call. */
  function Drained(todos: seq<Todo>, q: seq<Action>, server: DrainServer): (d: Drain)
    ensures d.calls == |q|
    decreases |q|
  {
    if q == [] then Drain(todos, 0)
    else DrainStep(Drained(todos, q[..|q| - 1], server), q[|q| - 1], server)
  }

  /** Appending an action to the queue adds one last step to the drain:
      the action is replayed on the list the earlier actions left, with the
      answer to the call numbered by the earlier actions' count. */
  lemma DrainedAppend(todos: seq<Todo>, q: seq<Action>, a: Action, server: DrainServer)
    ensures Drained(todos, q + [a], server).todos == ReplayAction(Drained(todos, q, server).todos, a, server(|q|, a))
  {
    assert (q + [a])[..|q + [a]| - 1] == q;
  }

  /** A drain whose every call fails leaves the list as it was. */
  lemma {:induction false} FailedDrainKeepsList(todos: seq<Todo>, q: seq<Action>, server: DrainServer)
    requires forall k :: 0 <= k < |q| ==> server(k, q[k]).Err?
    ensures Drained(todos, q, server).todos == todos
    decreases |q|
  {
    if q != [] {
      var q' := q[..|q| - 1];
      assert forall k :: 0 <= k < |q'| ==> q'[k] == q[k];
      FailedDrainKeepsList(todos, q', server);
      assert server(|q'|, q[|q| - 1]).Err?;
    }
  }

  /** Every confirmed add in `q` comes back under the id it was queued with. */
  ghost predicate ConfirmsIds(q: seq<Action>, server: DrainServer) {
    forall k :: 0 <= k < |q| && q[k].Add? && server(k, q[k]).Ok? ==> server(k, q[k]).value.id == q[k].todo.id
  }

  /** A drain keeps ids unique as long as the server confirms every add
      under the id it was queued with. */
  lemma {:induction false} DrainKeepsIdsUnique(todos: seq<Todo>, q: seq<Action>, server: DrainServer)
    requires UniqueIds(todos) && ConfirmsIds(q, server)
    ensures UniqueIds(Drained(todos, q, server).todos)
    decreases |q|
  {
    if q != [] {
      var q' := q[..|q| - 1];
      assert forall k :: 0 <= k < |q'| ==> q'[k] == q[k];
      DrainKeepsIdsUnique(todos, q', server);
      var d := Drained(todos, q', server);
      assert d.calls == |q'|;
      var a := q[|q| - 1];
      assert a.Add? && server(|q'|, a).Ok? ==> server(|q'|, a).value.id == a.todo.id;
    }
  }

  /** The generic queue replay with the drain's processor is `Drained`. */
  lemma {:induction false} DrainedIsReplay(todos: seq<Todo>, q: seq<Action>, server: DrainServer, processor: (Drain, Action) -> Drain)
    requires forall d, a :: processor(d, a) == DrainStep(d, a, server)
    ensures Replay(Drain(todos, 0), q, processor) == Drained(todos, q, server)
    decreases |q|
  {
    if q != [] {
      DrainedIsReplay(todos, q[..|q| - 1], server, processor);
    }
  }

  /** The effect run at mount and whenever a connectivity signal changes.
      `captured` is the list held by the render that scheduled the effect.
      With both signals up it drains the queue through the server, applying
      each confirmed answer to the current list, then clears the queue
      whatever the answers were, and writes `captured` to the cache. */
  method DrainQueue(st: State, captured: seq<Todo>, conn: Connectivity, server: DrainServer) returns (r: State, calls: seq<Action>)
    ensures !CanSync(conn) ==> r == st && calls == []
    ensures CanSync(conn) ==> calls == GetQueue(st.store)
    ensures CanSync(conn) ==> r.todos == Drained(st.todos, GetQueue(st.store), server).todos
    ensures CanSync(conn) ==> GetQueue(r.store) == [] && r.store.todosEntry == Some(captured)
  {
    if !CanSync(conn) {
      return st, [];
    }
    var processor := (d: Drain, a: Action) => DrainStep(d, a, server);
    var store, final, sent := ProcessQueue(st.store, Drain(st.todos, 0), processor);
    DrainedIsReplay(st.todos, GetQueue(st.store), server, processor);
    r := State(final.todos, store.(todosEntry := Some(captured)));
    calls := sent;
  }

  /** Loading at start-up or on refresh: the fetched list replaces the
      current one and is cached; if the fetch fails, the cached list is
      shown when there is one and the current list is kept otherwise. */
  function FetchAndSyncTodos(st: State, fetched: Reply<seq<Todo>>): (r: State)
    ensures fetched.Ok? ==> r.todos == fetched.value && r.store.todosEntry == Some(fetched.value)
    ensures fetched.Err? ==> r.store == st.store
    ensures fetched.Err? && st.store.todosEntry.Some? ==> r.todos == st.store.todosEntry.value
    ensures fetched.Err? && st.store.todosEntry.None? ==> r == st
    ensures GetQueue(r.store) == GetQueue(st.store)
  {
    match fetched
    case Ok(data) => Commit(st, data)
    case Err =>
      match st.store.todosEntry
      case Some(cached) => st.(todos := cached)
      case None => st
  }

  /** With unique ids, an offline toggle flips `done` on exactly the item
      with the id, leaves every other item and field alone, keeps ids
      unique and queues the flipped item. */
  lemma OfflineToggleFlipsOnlyDone(st: State, conn: Connectivity, k: int, server: Server)
    requires UniqueIds(st.todos) && 0 <= k < |st.todos| && !CanSync(conn)
    ensures var r := HandleToggleTodo(st, conn, st.todos[k].id, server);
      && r.todos[k] == Toggled(st.todos[k])
      && (forall i :: 0 <= i < |st.todos| && i != k ==> r.todos[i] == st.todos[i])
      && UniqueIds(r.todos)
      && GetQueue(r.store) == GetQueue(st.store) + [Update(Toggled(st.todos[k]))]
  {
    var id := st.todos[k].id;
    assert st.todos[k] in st.todos;
    FindUnique(st.todos, k);
    ReplaceByIdKeepsIds(st.todos, id, Toggled(st.todos[k]));
  }

  /** Toggling the same item twice offline restores the list. */
  lemma OfflineToggleTwiceRestores(st: State, conn: Connectivity, k: int, server: Server, r1: State)
    requires UniqueIds(st.todos) && 0 <= k < |st.todos| && !CanSync(conn)
    requires r1 == HandleToggleTodo(st, conn, st.todos[k].id, server)
    ensures HandleToggleTodo(r1, conn, st.todos[k].id, server).todos == st.todos
  {
    var x := st.todos[k];
    OfflineToggleReplaces(st, conn, k, x.id, server);
    OfflineToggleReplaces(r1, conn, k, x.id, server);
    assert Toggled(Toggled(x)) == x;
    ReplaceByIdUndo(st.todos, k, Toggled(x));
  }

  /** Toggling the same item twice offline queues both updates, in order:
      first the flipped item, then the original. */
  lemma OfflineToggleTwiceQueues(st: State, conn: Connectivity, k: int, server: Server, r1: State)
    requires UniqueIds(st.todos) && 0 <= k < |st.todos| && !CanSync(conn)
    requires r1 == HandleToggleTodo(st, conn, st.todos[k].id, server)
    ensures GetQueue(HandleToggleTodo(r1, conn, st.todos[k].id, server).store)
      == GetQueue(st.store) + [Update(Toggled(st.todos[k])), Update(st.todos[k])]
  {
    var x := st.todos[k];
    var u := Toggled(x);
    var q := GetQueue(st.store);
    OfflineToggleReplaces(st, conn, k, x.id, server);
    var r2 := HandleToggleTodo(r1, conn, x.id, server);
    OfflineToggleReplaces(r1, conn, k, x.id, server);
    assert GetQueue(r2.store) == GetQueue(r1.store) + [Update(Toggled(u))];
    assert Toggled(u) == x;
    AppendTwice(q, GetQueue(r1.store), GetQueue(r2.store), Update(u), Update(x));
  }

  /** Two single appends are one append of the pair. */
  lemma AppendTwice<T>(q: seq<T>, q1: seq<T>, q2: seq<T>, a: T, b: T)
    requires q1 == q + [a] && q2 == q1 + [b]
    ensures q2 == q + [a, b]
  {
  }

  /** With unique ids, an offline toggle of the `k`-th item is the id-keyed
      replacement by its flipped copy, queued as an update. */
  lemma OfflineToggleReplaces(st: State, conn: Connectivity, k: int, id: string, server: Server)
    requires UniqueIds(st.todos) && 0 <= k < |st.todos| && st.todos[k].id == id && !CanSync(conn)
    ensures var r := HandleToggleTodo(st, conn, id, server);
      && r.todos == ReplaceById(st.todos, id, Toggled(st.todos[k]))
      && r.todos[k] == Toggled(st.todos[k])
      && UniqueIds(r.todos)
      && GetQueue(r.store) == GetQueue(st.store) + [Update(Toggled(st.todos[k]))]
  {
    FindUnique(st.todos, k);
    ReplaceByIdKeepsIds(st.todos, id, Toggled(st.todos[k]));
  }

  /** An add keeps ids unique when the new id is fresh and, online, the
      server's copy carries a fresh id too. */
  lemma AddKeepsIdsUnique(st: State, conn: Connectivity, d: Draft, id: string, server: Server)
    requires UniqueIds(st.todos) && !HasId(st.todos, id)
    requires CanSync(conn) && server(Add(NewTodo(d, id))).Ok? ==>
      !HasId(st.todos, server(Add(NewTodo(d, id))).value.id)
    ensures UniqueIds(HandleAddTodo(st, conn, d, id, server).todos)
  {
    var r := HandleAddTodo(st, conn, d, id, server);
    if r != st {
      UniqueCons(r.todos[0], st.todos);
      assert r.todos == [r.todos[0]] + st.todos;
    }
  }

  /** A toggle keeps ids unique as long as, online, the server answers
      under the same id. */
  lemma ToggleKeepsIdsUnique(st: State, conn: Connectivity, id: string, server: Server)
    requires UniqueIds(st.todos)
    requires CanSync(conn) && HasId(st.todos, id) && server(Update(Toggled(Find(st.todos, id).value))).Ok? ==>
      server(Update(Toggled(Find(st.todos, id).value))).value.id == id
    ensures UniqueIds(HandleToggleTodo(st, conn, id, server).todos)
  {
    var r := HandleToggleTodo(st, conn, id, server);
    assert forall i :: 0 <= i < |st.todos| ==> r.todos[i].id == st.todos[i].id;
  }

  /** A delete keeps ids unique and keeps the surviving items in their
      relative order. */
  lemma DeleteKeepsOrder(st: State, conn: Connectivity, id: string, server: Server, a: seq<Todo>, b: seq<Todo>)
    requires st.todos == a + b
    ensures UniqueIds(st.todos) ==> UniqueIds(HandleDeleteTodo(st, conn, id, server).todos)
    ensures !CanSync(conn) || server(Delete(id)).Ok? ==>
      HandleDeleteTodo(st, conn, id, server).todos == RemoveById(a, id) + RemoveById(b, id)
  {
    RemoveByIdUnique(st.todos, id);
    RemoveByIdConcat(a, b, id);
  }
}

=== FILE: offline_queue.dfy ===
/** The durable first-in first-out log of actions not yet confirmed by the
    remote service, kept under one storage key. */
module OfflineQueue {
  import opened Wrappers
  import opened Actions
  import opened Storage

  /** The stored queue, or the empty queue when nothing is stored. */
  function GetQueue(s: Storage): (q: seq<Action>)
    ensures s.queueEntry.None? ==> q == []
    ensures s.queueEntry.Some? ==> q == s.queueEntry.value
  {
    match s.queueEntry
    case None => []
    case Some(q) => q
  }

  /** Appends one action at the end of the stored queue. */
  function AddToQueue(s: Storage, a: Action): (r: Storage)
    ensures GetQueue(r) == GetQueue(s) + [a]
    ensures |GetQueue(r)| == |GetQueue(s)| + 1
    ensures forall i :: 0 <= i < |GetQueue(s)| ==> GetQueue(r)[i] == GetQueue(s)[i]
    ensures r.todosEntry == s.todosEntry
  {
    s.(queueEntry := Some(GetQueue(s) + [a]))
  }

  /** Removes the queue key. */
  function ClearQueue(s: Storage): (r: Storage)
    ensures GetQueue(r) == []
    ensures r.todosEntry == s.todosEntry
  {
    s.(queueEntry := None)
  }

  /** The effect of handing the actions of `q`, in order, to `processor`,
      starting from `init`. */
  function Replay<S>(init: S, q: seq<Action>, processor: (S, Action) -> S): S
    decreases |q|
  {
    if q == [] then init
    else processor(Replay(init, q[..|q| - 1], processor), q[|q| - 1])
  }

  /** Replaying two queues one after the other is replaying their
      concatenation. */
  lemma {:induction false} ReplayConcat<S>(init: S, q1: seq<Action>, q2: seq<Action>, processor: (S, Action) -> S)
    ensures Replay(init, q1 + q2, processor) == Replay(Replay(init, q1, processor), q2, processor)
    decreases |q2|
  {
    if q2 == [] {
      assert q1 + q2 == q1;
    } else {
      var q2' := q2[..|q2| - 1];
      ReplayConcat(init, q1, q2', processor);
      assert (q1 + q2)[..|q1 + q2| - 1] == q1 + q2';
    }
  }

  /** Hands every stored action to `processor`, one call each, in stored
      order, then clears the queue whatever the processor did. `calls` is
      the sequence of actions the processor received. */
  method ProcessQueue<S>(s: Storage, init: S, processor: (S, Action) -> S)
    returns (r: Storage, final: S, calls: seq<Action>)
    ensures calls == GetQueue(s)
    ensures final == Replay(init, GetQueue(s), processor)
    ensures GetQueue(r) == []
    ensures r.todosEntry == s.todosEntry
  {
    var queue := GetQueue(s);
    final := init;
    calls := [];
    for i := 0 to |queue|
      invariant calls == queue[..i]
      invariant final == Replay(init, queue[..i], processor)
    {
      assert queue[..i + 1][..i] == queue[..i];
      final := processor(final, queue[i]);
      calls := calls + [queue[i]];
    }
    assert queue[..|queue|] == queue;
    r := ClearQueue(s);
  }

  /** Round trip: after an append the queue reads back as the old queue
      followed by the new action, and a later drain hands that action to the
      processor last. */
  lemma AppendThenReplay<S>(s: Storage, a: Action, init: S, processor: (S, Action) -> S)
    ensures GetQueue(AddToQueue(s, a)) == GetQueue(s) + [a]
    ensures Replay(init, GetQueue(AddToQueue(s, a)), processor)
         == processor(Replay(init, GetQueue(s), processor), a)
  {
    var q := GetQueue(s) + [a];
    assert q[..|q| - 1] == GetQueue(s);
  }
}

=== FILE: online_app.dfy ===
/** The earlier client, which has no queue: every intent is a remote call,
    and a failed call is ignored. It installs the same real-time handlers as
    the offline-first client (module Realtime). */
module OnlineApp {
  import opened Wrappers
  import opened Text
  import opened TodoModel
  import opened TodoList
  import opened Actions
  import opened Storage
  import opened OfflineQueue
  import opened Client

  /** The request body for a new todo: trimmed text, not done, the given id;
      the record's other fields keep their defaults. */
  function NewTodo(input: string, id: string): (t: Todo)
    ensures t.id == id && !t.done
    ensures t.text == Trim(input) && IsTrimmed(t.text)
    ensures t.description == [] && t.tags == [] && t.dueDate.None?
  {
    DefaultTodo().(id := id, text := Trim(input))
  }

  /** Adding a todo: a blank input changes nothing; the server's copy is
      prepended and cached; a failed call changes nothing. */
  function AddTodo(st: State, input: string, id: string, server: Server): (r: State)
    ensures Trim(input) == [] || server(Add(NewTodo(input, id))).Err? ==> r == st
    ensures Trim(input) != [] && server(Add(NewTodo(input, id))).Ok? ==>
      && |r.todos| == |st.todos| + 1
      && r.todos[0] == server(Add(NewTodo(input, id))).value && r.todos[1..] == st.todos
      && r.store.todosEntry == Some(r.todos)
    ensures r.store.queueEntry == st.store.queueEntry
  {
    if Trim(input) == [] then st
    else
      match server(Add(NewTodo(input, id)))
      case Ok(saved) => Commit(st, [saved] + st.todos)
      case Err => st
  }

  /** Toggling a todo: an unknown id changes nothing; the server's answer to
      the flipped first match replaces every item with the id; a failed call
      changes nothing. */
  function ToggleTodo(st: State, id: string, server: Server): (r: State)
    ensures !HasId(st.todos, id) ==> r == st
    ensures |r.todos| == |st.todos|
    ensures forall i :: 0 <= i < |st.todos| && st.todos[i].id != id ==> r.todos[i] == st.todos[i]
    ensures HasId(st.todos, id) ==>
      match server(Update(Find(st.todos, id).value.(done := !Find(st.todos, id).value.done)))
      case Err => r == st
      case Ok(saved) =>
        && (forall i :: 0 <= i < |st.todos| && st.todos[i].id == id ==> r.todos[i] == saved)
        && r.store.todosEntry == Some(r.todos)
    ensures r.store.queueEntry == st.store.queueEntry
  {
    match Find(st.todos, id)
    case None => st
    case Some(t) =>
      match server(Update(t.(done := !t.done)))
      case Ok(saved) => Commit(st, ReplaceById(st.todos, id, saved))
      case Err => st
  }

  /** Deleting a todo: once the server confirms, every item with the id is
      removed and the rest are cached; a failed call changes nothing. */
  function DeleteTodo(st: State, id: string, server: Server): (r: State)
    ensures server(Delete(id)).Err? ==> r == st
    ensures server(Delete(id)).Ok? ==>
      && !HasId(r.todos, id)
      && (forall t :: t in r.todos <==> t in st.todos && t.id != id)
      && r.store.todosEntry == Some(r.todos)
    ensures r.store.queueEntry == st.store.queueEntry
  {
    match server(Delete(id))
    case Ok(_) => Commit(st, RemoveById(st.todos, id))
    case Err => st
  }

  /** A confirmed delete keeps the surviving items in their order. */
  lemma DeleteKeepsOrder(st: State, id: string, server: Server, a: seq<Todo>, b: seq<Todo>)
    requires st.todos == a + b && server(Delete(id)).Ok?
    ensures DeleteTodo(st, id, server).todos == RemoveById(a, id) + RemoveById(b, id)
  {
    RemoveByIdConcat(a, b, id);
  }

  /** Loading: the fetched list replaces the current one and is cached; if
      the fetch fails the cached list is shown, or the empty list when
      nothing is cached. */
  function FetchAndSyncTodos(st: State, fetched: Reply<seq<Todo>>): (r: State)
    ensures fetched.Ok? ==> r.todos == fetched.value && r.store.todosEntry == Some(fetched.value)
    ensures fetched.Err? ==> r.store == st.store
    ensures fetched.Err? && st.store.todosEntry.Some? ==> r.todos == st.store.todosEntry.value
    ensures fetched.Err? && st.store.todosEntry.None? ==> r.todos == []
    ensures r.store.queueEntry == st.store.queueEntry
  {
    match fetched
    case Ok(data) => Commit(st, data)
    case Err =>
      match st.store.todosEntry
      case Some(cached) => st.(todos := cached)
      case None => st.(todos := [])
  }

  /** A list that was published is what a failed load shows afterwards,
      whether on the same screen or after a restart. */
  lemma FailedLoadShowsCommitted(st: State, todos: seq<Todo>)
    ensures FetchAndSyncTodos(Commit(st, todos), Err).todos == todos
    ensures FetchAndSyncTodos(State([], Commit(st, todos).store), Err).todos == todos
  {
  }
}

=== FILE: realtime.dfy ===
/** The handlers for the real-time events another client's mutation
    produces. Both versions of the client install the same three handlers. */
module Realtime {
  import opened Wrappers
  import opened TodoModel
  import opened TodoList
  import opened OfflineQueue
  import opened Client

  /** A remote add: ignored when the id is already listed (for instance the
      echo of this client's own add), otherwise prepended and cached. */
  function HandleRemoteAdd(st: State, t: Todo): (r: State)
    ensures HasId(st.todos, t.id) ==> r == st
    ensures !HasId(st.todos, t.id) ==> |r.todos| == |st.todos| + 1 && r.todos[0] == t && r.todos[1..] == st.todos
    ensures !HasId(st.todos, t.id) ==> r.store.todosEntry == Some(r.todos)
    ensures HasId(r.todos, t.id)
    ensures UniqueIds(st.todos) ==> UniqueIds(r.todos)
    ensures GetQueue(r.store) == GetQueue(st.store)
  {
    if HasId(st.todos, t.id) then st
    else
      UniqueCons(t, st.todos);
      assert t in [t] + st.todos;
      Commit(st, [t] + st.todos)
  }

  /** A remote update: every item with the incoming id is replaced, all
      others stay in place; an unknown id leaves the list as it is. The
      result is cached in every case. */
  function HandleRemoteUpdate(st: State, t: Todo): (r: State)
    ensures Ids(r.todos) == Ids(st.todos)
    ensures forall i :: 0 <= i < |st.todos| && st.todos[i].id != t.id ==> r.todos[i] == st.todos[i]
    ensures forall i :: 0 <= i < |st.todos| && st.todos[i].id == t.id ==> r.todos[i] == t
    ensures UniqueIds(st.todos) ==> UniqueIds(r.todos)
    ensures r.store.todosEntry == Some(r.todos)
    ensures GetQueue(r.store) == GetQueue(st.store)
  {
    ReplaceByIdKeepsIds(st.todos, t.id, t);
    Commit(st, ReplaceById(st.todos, t.id, t))
  }

  /** A remote delete: every item with the id goes, the rest keep their
      order. The result is cached in every case. */
  function HandleRemoteDelete(st: State, id: string): (r: State)
    ensures !HasId(r.todos, id)
    ensures forall t :: t in r.todos <==> t in st.todos && t.id != id
    ensures UniqueIds(st.todos) ==> UniqueIds(r.todos)
    ensures r.store.todosEntry == Some(r.todos)
    ensures GetQueue(r.store) == GetQueue(st.store)
  {
    RemoveByIdUnique(st.todos, id);
    Commit(st, RemoveById(st.todos, id))
  }

  /** Delivering the same remote add twice is delivering it once. */
  lemma RemoteAddIdempotent(st: State, t: Todo)
    ensures HandleRemoteAdd(HandleRemoteAdd(st, t), t) == HandleRemoteAdd(st, t)
  {
  }

  /** Delivering the same remote delete twice is delivering it once. */
  lemma RemoteDeleteIdempotent(st: State, id: string)
    ensures HandleRemoteDelete(HandleRemoteDelete(st, id), id) == HandleRemoteDelete(st, id)
  {
    RemoveByIdIdempotent(st.todos, id);
  }

  /** A remote delete keeps the survivors in their relative order: deleting
      from a concatenation deletes from each part. */
  lemma RemoteDeleteKeepsOrder(st: State, a: seq<Todo>, b: seq<Todo>, id: string)
    requires st.todos == a + b
    ensures HandleRemoteDelete(st, id).todos == RemoveById(a, id) + RemoveById(b, id)
  {
    RemoveByIdConcat(a, b, id);
  }

  /** A remote update for an id that is not listed leaves the list alone,
      and delivering the same update twice is delivering it once. */
  lemma RemoteUpdateAbsentAndIdempotent(st: State, t: Todo)
    ensures !HasId(st.todos, t.id) ==> HandleRemoteUpdate(st, t).todos == st.todos
    ensures HandleRemoteUpdate(HandleRemoteUpdate(st, t), t) == HandleRemoteUpdate(st, t)
  {
    if !HasId(st.todos, t.id) {
      ReplaceByIdAbsent(st.todos, t.id, t);
    }
    ReplaceByIdIdempotent(st.todos, t.id, t);
  }

  /** A delete followed by a late update for the same id: the update finds
      nothing to replace and the item stays gone. */
  lemma DeleteSuppressesLateUpdate(st: State, t: Todo)
    ensures HandleRemoteUpdate(HandleRemoteDelete(st, t.id), t).todos == HandleRemoteDelete(st, t.id).todos
    ensures !HasId(HandleRemoteUpdate(HandleRemoteDelete(st, t.id), t).todos, t.id)
  {
    var d := HandleRemoteDelete(st, t.id);
    ReplaceByIdAbsent(d.todos, t.id, t);
  }

  /** Two clients that each add a fresh item and then receive the other's
      add end with the same items, each exactly once, and unique ids. */
  lemma ConcurrentAddsConverge(st: State, a: Todo, b: Todo)
    requires UniqueIds(st.todos)
    requires a.id != b.id && !HasId(st.todos, a.id) && !HasId(st.todos, b.id)
    ensures var x := HandleRemoteAdd(HandleRemoteAdd(st, a), b).todos;
            var y := HandleRemoteAdd(HandleRemoteAdd(st, b), a).todos;
            x == [b, a] + st.todos && y == [a, b] + st.todos
            && UniqueIds(x) && UniqueIds(y)
            && multiset(x) == multiset(y)
  {
    var sa := HandleRemoteAdd(st, a);
    var sb := HandleRemoteAdd(st, b);
    assert !HasId(sa.todos, b.id) by {
      assert sa.todos == [a] + st.todos;
    }
    assert !HasId(sb.todos, a.id) by {
      assert sb.todos == [b] + st.todos;
    }
    assert HandleRemoteAdd(sa, b).todos == [b] + ([a] + st.todos);
    assert HandleRemoteAdd(sb, a).todos == [a] + ([b] + st.todos);
  }
}

=== FILE: scenarios.dfy ===
/** Properties of sequences of events: a restart after an offline add, with
    the loader and the mount-time drain racing; a stale real-time echo
    racing a pending toggle; and the agreement of the two clients when the
    backend is reachable. */
module Scenarios {
  import opened Wrappers
  import opened Text
  import opened TodoModel
  import opened TodoList
  import opened Actions
  import opened Storage
  import opened OfflineQueue
  import opened Client
  import opened Realtime
  import Offline = OfflineApp
  import Online = OnlineApp

  /** A start-up with the backend unreachable, in which the mount-time
      drain finishes before the loader falls back to the cache. Both
      signals start up, so the drain runs; every call fails, the queue is
      cleared anyway and the empty list the mount captured is cached, which
      is then all the loader finds. */
  method RestartDrainFirst(store: Storage, drain: Offline.DrainServer) returns (r: State)
    requires forall n, a :: drain(n, a).Err?
    ensures r.todos == []
    ensures GetQueue(r.store) == [] && r.store.todosEntry == Some([])
  {
    var q := GetQueue(store);
    assert forall k :: 0 <= k < |q| ==> drain(k, q[k]).Err?;
    Offline.FailedDrainKeepsList([], q, drain);
    var drained, calls;
    drained, calls := Offline.DrainQueue(State([], store), [], Offline.StartUp, drain);
    r := Offline.FetchAndSyncTodos(drained, Err);
  }

  /** The same start-up when the loader reads the cache first: the cached
      list is shown, but the drain then clears the queue and caches the
      empty list, so a further such start-up shows nothing. */
  method RestartLoaderFirst(store: Storage, drain: Offline.DrainServer) returns (r: State)
    requires forall n, a :: drain(n, a).Err?
    ensures store.todosEntry.Some? ==> r.todos == store.todosEntry.value
    ensures store.todosEntry.None? ==> r.todos == []
    ensures GetQueue(r.store) == [] && r.store.todosEntry == Some([])
    ensures Offline.FetchAndSyncTodos(State([], r.store), Err).todos == []
  {
    var loaded := Offline.FetchAndSyncTodos(State([], store), Err);
    var q := GetQueue(loaded.store);
    assert forall k :: 0 <= k < |q| ==> drain(k, q[k]).Err?;
    Offline.FailedDrainKeepsList(loaded.todos, q, drain);
    var calls;
    r, calls := Offline.DrainQueue(loaded, [], Offline.StartUp, drain);
  }

  /** An item added offline does not survive a restart with the backend
      unreachable when the mount-time drain finishes first: the list, the
      queue and the cache all end empty. */
  method OfflineAddLostWhenDrainFirst(st: State, conn: Offline.Connectivity, d: Offline.Draft, id: string,
                                      server: Server, drain: Offline.DrainServer)
    returns (r: State)
    requires !Offline.CanSync(conn) && !AllSpace(d.input)
    requires forall n, a :: drain(n, a).Err?
    ensures Offline.NewTodo(d, id) !in r.todos
    ensures GetQueue(r.store) == [] && r.store.todosEntry == Some([])
  {
    var added := Offline.HandleAddTodo(st, conn, d, id, server);
    r := RestartDrainFirst(added.store, drain);
  }

  /** When the loader reads the cache first, the item added offline is
      shown, but it is neither queued nor cached, so the next restart with
      the backend unreachable loses it. */
  method OfflineAddLostWhenLoaderFirst(st: State, conn: Offline.Connectivity, d: Offline.Draft, id: string,
                                       server: Server, drain: Offline.DrainServer)
    returns (r: State)
    requires !Offline.CanSync(conn) && !AllSpace(d.input)
    requires forall n, a :: drain(n, a).Err?
    ensures r.todos == Offline.HandleAddTodo(st, conn, d, id, server).todos
    ensures Offline.NewTodo(d, id) in r.todos
    ensures GetQueue(r.store) == [] && r.store.todosEntry == Some([])
    ensures Offline.FetchAndSyncTodos(State([], r.store), Err).todos == []
  {
    TrimEmptyIffBlank(d.input);
    var added := Offline.HandleAddTodo(st, conn, d, id, server);
    assert added.store.todosEntry == Some(added.todos) && added.todos[0] == Offline.NewTodo(d, id);
    r := RestartLoaderFirst(added.store, drain);
  }

  /** Offline add, then a restart in which the loader's fetch fails and
      falls back to the cache before the mount-time drain sends the queued
      add. When that call is confirmed, the server's copy is listed first
      and the optimistic copy is gone, but the cache still receives the
      empty list the mount captured. */
  method OfflineAddConfirmedAfterRestart(st: State, conn: Offline.Connectivity, d: Offline.Draft, id: string,
                                         server: Server, drain: Offline.DrainServer, saved: Todo)
    returns (r: State)
    requires !Offline.CanSync(conn) && !AllSpace(d.input) && GetQueue(st.store) == []
    requires drain(0, Add(Offline.NewTodo(d, id))) == Ok(saved)
    ensures |r.todos| >= 1 && r.todos[0] == saved && r.todos[1..] == RemoveById(st.todos, id)
    ensures GetQueue(r.store) == [] && r.store.todosEntry == Some([])
  {
    TrimEmptyIffBlank(d.input);
    var t := Offline.NewTodo(d, id);
    var added := Offline.HandleAddTodo(st, conn, d, id, server);
    assert added.todos == [t] + st.todos;
    assert GetQueue(added.store) == [Add(t)];
    var loaded := Offline.FetchAndSyncTodos(State([], added.store), Err);
    assert loaded.todos == added.todos && loaded.store == added.store;
    var calls;
    r, calls := Offline.DrainQueue(loaded, [], Offline.StartUp, drain);
    Offline.DrainedAppend(added.todos, [], Add(t), drain);
    assert [] + [Add(t)] == [Add(t)];
    RemoveByIdConcat([t], st.todos, id);
    assert RemoveById([t], id) == [];
  }

  /** The client as written gives no precedence to a pending local change:
      a stale real-time update for a toggled item shows the stale copy while
      the toggle is still queued. */
  lemma StaleEchoOverridesPendingToggle(st: State, conn: Offline.Connectivity, k: int, server: Server)
    requires UniqueIds(st.todos) && 0 <= k < |st.todos| && !Offline.CanSync(conn)
    ensures var x := st.todos[k];
      var echoed := HandleRemoteUpdate(Offline.HandleToggleTodo(st, conn, x.id, server), x);
      && echoed.todos == st.todos
      && GetQueue(echoed.store) == GetQueue(st.store) + [Update(Offline.Toggled(x))]
  {
    var x := st.todos[k];
    var u := Offline.Toggled(x);
    FindUnique(st.todos, k);
    var toggled := Offline.HandleToggleTodo(st, conn, x.id, server);
    assert toggled.todos == ReplaceById(st.todos, x.id, u);
    assert GetQueue(toggled.store) == GetQueue(st.store) + [Update(u)];
    ReplaceByIdUndo(st.todos, k, u);
  }

  /** Once a drain confirms a queued toggle with the toggled item, the
      toggled copy is shown again, whatever the list held meanwhile. */
  lemma ConfirmedToggleWins(todos: seq<Todo>, k: int, u: Todo, drain: Offline.DrainServer)
    requires 0 <= k < |todos| && todos[k].id == u.id
    requires drain(0, Update(u)) == Ok(u)
    ensures var r := Offline.Drained(todos, [Update(u)], drain).todos;
      k < |r| && r[k] == u
  {
    Offline.DrainedAppend(todos, [], Update(u), drain);
    assert [] + [Update(u)] == [Update(u)];
  }

  /** With the backend reachable, the offline-first client's toggle and
      delete behave exactly as the earlier client's, and so does its add
      when the server answers both requests alike. */
  lemma OnlineBranchesAgree(st: State, conn: Offline.Connectivity, d: Offline.Draft, id: string, server: Server)
    requires Offline.CanSync(conn)
    ensures Offline.HandleToggleTodo(st, conn, id, server) == Online.ToggleTodo(st, id, server)
    ensures Offline.HandleDeleteTodo(st, conn, id, server) == Online.DeleteTodo(st, id, server)
    ensures server(Add(Offline.NewTodo(d, id))) == server(Add(Online.NewTodo(d.input, id))) ==>
      Offline.HandleAddTodo(st, conn, d, id, server) == Online.AddTodo(st, d.input, id, server)
  {
  }

  /** A drain in which every call fails still empties the queue: the
      queued actions are dropped and the list is left as it was. */
  method FailedDrainDropsActions(st: State, conn: Offline.Connectivity, drain: Offline.DrainServer)
    returns (r: State)
    requires Offline.CanSync(conn)
    requires forall n, a :: drain(n, a).Err?
    ensures r.todos == st.todos
    ensures GetQueue(r.store) == []
  {
    var calls;
    r, calls := Offline.DrainQueue(st, st.todos, conn, drain);
    Offline.FailedDrainKeepsList(st.todos, GetQueue(st.store), drain);
  }
}

=== FILE: storage.dfy ===
/** The device's key-value store as the client uses it: two keys, one for
    the cached todo list and one for the pending-action queue. */
module Storage {
  import opened Wrappers
  import opened TodoModel
  import opened Actions

  /** `todosEntry` is the value under the key "TODOS", `queueEntry` the
      value under "OFFLINE_QUEUE"; `None` means the key is absent. Values
      are kept as parsed data: JSON serialisation is taken to round-trip. */
  datatype Storage = Storage(todosEntry: Option<seq<Todo>>, queueEntry: Option<seq<Action>>)
}

=== FILE: text.dfy ===
/** The string handling the add form applies to its inputs: JavaScript's
    `String.prototype.trim` and `String.prototype.split` with a one-character
    separator, and the tag parsing built from them. */
module Text {

  /** The characters `trim` removes: the ECMAScript WhiteSpace and
      LineTerminator code points. */
  predicate IsSpace(c: char) {
    || c == ' ' || c == '\t' || c == '\n' || c == '\r'
    || c == '\U{000B}' || c == '\U{000C}' || c == '\U{00A0}' || c == '\U{1680}'
    || ('\U{2000}' <= c <= '\U{200A}')
    || c == '\U{2028}' || c == '\U{2029}' || c == '\U{202F}' || c == '\U{205F}'
    || c == '\U{3000}' || c == '\U{FEFF}'
  }

  predicate AllSpace(s: string) {
    forall i :: 0 <= i < |s| ==> IsSpace(s[i])
  }

  /** Neither starts nor ends with white space. */
  predicate IsTrimmed(s: string) {
    s == [] || (!IsSpace(s[0]) && !IsSpace(s[|s| - 1]))
  }

  /** `r` sits at offset `i` of `s` with only white space around it. */
  ghost predicate Framed(s: string, r: string, i: int)
    requires 0 <= i <= |s| - |r|
  {
    s[i..i + |r|] == r && AllSpace(s[..i]) && AllSpace(s[i + |r|..])
  }

  function TrimStart(s: string): (r: string)
    ensures |r| <= |s| && r == s[|s| - |r|..]
    ensures AllSpace(s[..|s| - |r|])
    ensures r == [] || !IsSpace(r[0])
  {
    if s != [] && IsSpace(s[0]) then TrimStart(s[1..]) else s
  }

  function TrimEnd(s: string): (r: string)
    ensures |r| <= |s| && r == s[..|r|]
    ensures AllSpace(s[|r|..])
    ensures r == [] || !IsSpace(r[|r| - 1])
  {
    if s != [] && IsSpace(s[|s| - 1]) then TrimEnd(s[..|s| - 1]) else s
  }

  /** The offset in `s` at which `Trim(s)` starts. */
  function TrimOffset(s: string): (i: nat)
    ensures i <= |s|
  {
    |s| - |TrimStart(s)|
  }

  /** `s.trim()`: the result is `s` with the white space at both ends cut off. */
  function Trim(s: string): (r: string)
    ensures IsTrimmed(r)
    ensures TrimOffset(s) + |r| <= |s| && Framed(s, r, TrimOffset(s))
  {
    var t := TrimStart(s);
    var r := TrimEnd(t);
    FrameBetween(s, t, r);
    assert r != [] ==> r[0] == t[0];
    r
  }

  /** Cutting white space off the front and then off the back leaves a
      framed string. */
  lemma FrameBetween(s: string, t: string, r: string)
    requires |t| <= |s| && t == s[|s| - |t|..] && AllSpace(s[..|s| - |t|])
    requires |r| <= |t| && r == t[..|r|] && AllSpace(t[|r|..])
    ensures Framed(s, r, |s| - |t|)
  {
    assert s[|s| - |t| + |r|..] == t[|r|..];
  }

  /** Trimming yields the empty string exactly for blank input; this is the
      `!input.trim()` test that rejects an add. */
  lemma TrimEmptyIffBlank(s: string)
    ensures Trim(s) == [] <==> AllSpace(s)
  {
    var r := Trim(s);
    var i := TrimOffset(s);
    if r == [] {
      assert s == s[..i] + s[i..];
    } else {
      assert s[i] == r[0];
    }
  }

  /** A non-space character of `s` lies inside any framed trimmed string. */
  lemma FirstSolid(s: string, r: string, i: int, k: int)
    requires 0 <= i <= |s| - |r| && Framed(s, r, i)
    requires 0 <= k < |s| && !IsSpace(s[k])
    ensures i <= k < i + |r|
  {
  }

  /** A framed empty string leaves only white space in `s`. */
  lemma BlankFrame(s: string, r: string, i: int)
    requires 0 <= i <= |s| - |r| && Framed(s, r, i) && r == []
    ensures AllSpace(s)
  {
    assert s == s[..i] + s[i..];
  }

  /** A framed non-empty trimmed string puts a non-space character in `s`. */
  lemma SolidFrame(s: string, r: string, i: int)
    requires 0 <= i <= |s| - |r| && Framed(s, r, i) && IsTrimmed(r) && r != []
    ensures !AllSpace(s)
  {
    assert s[i] == r[0];
  }

  /** Two framed non-empty trimmed strings of `s` are the same string. */
  lemma SameFrame(s: string, r: string, i: int, t: string, j: int)
    requires 0 <= i <= |s| - |r| && Framed(s, r, i) && IsTrimmed(r) && r != []
    requires 0 <= j <= |s| - |t| && Framed(s, t, j) && IsTrimmed(t) && t != []
    ensures r == t
  {
    assert s[i] == r[0] && s[i + |r| - 1] == r[|r| - 1];
    assert s[j] == t[0] && s[j + |t| - 1] == t[|t| - 1];
    FirstSolid(s, t, j, i);
    FirstSolid(s, r, i, j);
    FirstSolid(s, t, j, i + |r| - 1);
    FirstSolid(s, r, i, j + |t| - 1);
  }

  /** A trimmed string framed by white space in `s` is `Trim(s)`: the
      postcondition of `Trim` determines it completely. */
  lemma TrimUnique(s: string, r: string, i: int)
    requires IsTrimmed(r) && 0 <= i <= |s| - |r| && Framed(s, r, i)
    ensures r == Trim(s)
  {
    TrimEmptyIffBlank(s);
    if r == [] {
      BlankFrame(s, r, i);
    } else {
      SolidFrame(s, r, i);
      SameFrame(s, r, i, Trim(s), TrimOffset(s));
    }
  }

  /** Trimming twice is trimming once. */
  lemma TrimIdempotent(s: string)
    ensures Trim(Trim(s)) == Trim(s)
  {
    var r := Trim(s);
    assert r[0..0 + |r|] == r && r[..0] == [] && r[|r|..] == [];
    TrimUnique(r, r, 0);
  }

  /** `s.split(sep)`: the maximal separator-free pieces between separators,
      so the empty string splits into one empty piece. */
  function Split(s: string, sep: char): (parts: seq<string>)
    ensures |parts| >= 1
    ensures forall k :: 0 <= k < |parts| ==> sep !in parts[k]
  {
    if s == [] then [[]]
    else
      var rest := Split(s[1..], sep);
      if s[0] == sep then [[]] + rest
      else [[s[0]] + rest[0]] + rest[1..]
  }

  /** `parts.join(sep)`. */
  function Join(parts: seq<string>, sep: char): string {
    if parts == [] then []
    else if |parts| == 1 then parts[0]
    else parts[0] + [sep] + Join(parts[1..], sep)
  }

  /** Joining the pieces back with the separator gives the original string. */
  lemma {:induction false} JoinSplit(s: string, sep: char)
    ensures Join(Split(s, sep), sep) == s
  {
    if s != [] {
      var rest := Split(s[1..], sep);
      JoinSplit(s[1..], sep);
      if s[0] == sep {
        assert Split(s, sep) == [[]] + rest;
      } else {
        var parts := Split(s, sep);
        assert parts[0] == [s[0]] + rest[0] && parts[1..] == rest[1..];
        if |rest| > 1 {
          assert Join(rest, sep) == rest[0] + [sep] + Join(rest[1..], sep);
        }
      }
    }
  }

  /** Splitting a join of separator-free pieces gives the pieces back. */
  lemma {:induction false} SplitJoin(parts: seq<string>, sep: char)
    requires |parts| >= 1
    requires forall k :: 0 <= k < |parts| ==> sep !in parts[k]
    ensures Split(Join(parts, sep), sep) == parts
  {
    if |parts| == 1 {
      SplitPiece(parts[0], [], sep);
      assert parts[0] + [] == parts[0];
    } else {
      var tail := [sep] + Join(parts[1..], sep);
      SplitJoin(parts[1..], sep);
      assert tail[1..] == Join(parts[1..], sep);
      assert Split(tail, sep) == [[]] + parts[1..];
      SplitPiece(parts[0], tail, sep);
      assert Join(parts, sep) == parts[0] + tail;
      assert parts[0] + [] == parts[0];
      assert [parts[0]] + parts[1..] == parts;
    }
  }

  /** A separator-free prefix is glued onto the first piece of the rest. */
  lemma {:induction false} SplitPiece(p: string, t: string, sep: char)
    requires sep !in p
    ensures Split(p + t, sep) == [p + Split(t, sep)[0]] + Split(t, sep)[1..]
  {
    var st := Split(t, sep);
    if p == [] {
      assert p + t == t && p + st[0] == st[0];
      assert [st[0]] + st[1..] == st;
    } else {
      SplitPiece(p[1..], t, sep);
      var pt := p + t;
      assert pt[0] == p[0] && pt[1..] == p[1..] + t;
      assert p[0] != sep;
      var rest := Split(pt[1..], sep);
      assert rest == [p[1..] + st[0]] + st[1..];
      assert Split(pt, sep) == [[p[0]] + rest[0]] + rest[1..];
      assert [p[0]] + (p[1..] + st[0]) == p + st[0];
    }
  }

  /** `s.map(f)`. */
  function Map<A, B>(f: A -> B, s: seq<A>): (r: seq<B>)
    ensures |r| == |s|
    ensures forall k :: 0 <= k < |r| ==> r[k] == f(s[k])
  {
    if s == [] then [] else [f(s[0])] + Map(f, s[1..])
  }

  /** Mapping distributes over concatenation. */
  lemma {:induction false} MapConcat<A, B>(f: A -> B, a: seq<A>, b: seq<A>)
    ensures Map(f, a + b) == Map(f, a) + Map(f, b)
  {
    if a == [] {
      assert a + b == b;
    } else {
      MapConcat(f, a[1..], b);
      assert (a + b)[0] == a[0] && (a + b)[1..] == a[1..] + b;
    }
  }

  /** Every piece trimmed, as `.map(t => t.trim())` does. */
  function TrimAll(parts: seq<string>): (r: seq<string>)
    ensures |r| == |parts|
    ensures forall k :: 0 <= k < |r| ==> r[k] == Trim(parts[k])
  {
    Map(Trim, parts)
  }

  /** `s.filter(keep)`: the kept elements in their original order. */
  function Filter<T(!new)>(keep: T -> bool, s: seq<T>): (r: seq<T>)
    ensures forall x :: x in r <==> x in s && keep(x)
    ensures |r| <= |s|
  {
    if s == [] then [] else (if keep(s[0]) then [s[0]] else []) + Filter(keep, s[1..])
  }

  /** Filtering distributes over concatenation. */
  lemma {:induction false} FilterConcat<T(!new)>(keep: T -> bool, a: seq<T>, b: seq<T>)
    ensures Filter(keep, a + b) == Filter(keep, a) + Filter(keep, b)
  {
    if a == [] {
      assert a + b == b;
    } else {
      var head := if keep(a[0]) then [a[0]] else [];
      FilterConcat(keep, a[1..], b);
      assert (a + b)[0] == a[0] && (a + b)[1..] == a[1..] + b;
      assert Filter(keep, a + b) == head + Filter(keep, a[1..] + b);
      assert head + (Filter(keep, a[1..]) + Filter(keep, b)) == (head + Filter(keep, a[1..])) + Filter(keep, b);
    }
  }

  /** JavaScript's truthiness on strings: only the empty string is false. */
  predicate Truthy(p: string) {
    p != []
  }

  /** The non-empty pieces in their original order, as `.filter(Boolean)`
      does on strings. */
  function NonEmpty(parts: seq<string>): (r: seq<string>)
    ensures forall p :: p in r <==> p in parts && p != []
    ensures |r| <= |parts|
  {
    Filter(Truthy, parts)
  }

  /** `tags.split(',').map(t => t.trim()).filter(Boolean)`. */
  function ParseTags(s: string): (tags: seq<string>)
    ensures forall tag :: tag in tags ==> tag != [] && IsTrimmed(tag) && ',' !in tag
  {
    var parts := Split(s, ',');
    TrimmedPieces(parts);
    NonEmpty(TrimAll(parts))
  }

  /** Trimmed comma-free pieces stay trimmed and comma-free. */
  lemma TrimmedPieces(parts: seq<string>)
    requires forall k :: 0 <= k < |parts| ==> ',' !in parts[k]
    ensures forall p :: p in TrimAll(parts) ==> IsTrimmed(p) && ',' !in p
  {
    var trimmed := TrimAll(parts);
    forall p | p in trimmed
      ensures IsTrimmed(p) && ',' !in p
    {
      var k :| 0 <= k < |trimmed| && trimmed[k] == p;
      TrimInside(parts[k], ',');
    }
  }

  /** Trimming adds no character. */
  lemma TrimInside(s: string, c: char)
    requires c !in s
    ensures c !in Trim(s)
  {
    var i := TrimOffset(s);
    assert Trim(s) == s[i..i + |Trim(s)|];
  }

  /** Joining two non-empty lists of pieces puts one separator between
      their joins. */
  lemma {:induction false} JoinConcat(p: seq<string>, q: seq<string>, sep: char)
    requires |p| >= 1 && |q| >= 1
    ensures Join(p + q, sep) == Join(p, sep) + [sep] + Join(q, sep)
  {
    assert (p + q)[0] == p[0];
    if |p| == 1 {
      assert (p + q)[1..] == q;
    } else {
      JoinConcat(p[1..], q, sep);
      assert (p + q)[1..] == p[1..] + q;
    }
  }

  /** Splitting at a separator splits the two sides separately. */
  lemma SplitAt(a: string, b: string, sep: char)
    ensures Split(a + [sep] + b, sep) == Split(a, sep) + Split(b, sep)
  {
    var pa, pb := Split(a, sep), Split(b, sep);
    JoinSplit(a, sep);
    JoinSplit(b, sep);
    JoinConcat(pa, pb, sep);
    forall k | 0 <= k < |pa + pb|
      ensures sep !in (pa + pb)[k]
    {
      if k < |pa| {
        assert (pa + pb)[k] == pa[k];
      } else {
        assert (pa + pb)[k] == pb[k - |pa|];
      }
    }
    SplitJoin(pa + pb, sep);
  }

  /** `filter(Boolean)` distributes over concatenation, so the kept pieces
      keep their order and their repetitions. */
  lemma NonEmptyConcat(a: seq<string>, b: seq<string>)
    ensures NonEmpty(a + b) == NonEmpty(a) + NonEmpty(b)
  {
    FilterConcat(Truthy, a, b);
  }

  /** The tags of two strings joined by a comma are the tags of the first
      followed by the tags of the second: parsing keeps the order and the
      repetitions of the pieces. */
  lemma ParseTagsConcat(a: string, b: string)
    ensures ParseTags(a + [','] + b) == ParseTags(a) + ParseTags(b)
  {
    var pa, pb := Split(a, ','), Split(b, ',');
    SplitAt(a, b, ',');
    MapConcat(Trim, pa, pb);
    NonEmptyConcat(TrimAll(pa), TrimAll(pb));
    assert ParseTags(a + [','] + b) == NonEmpty(TrimAll(pa + pb));
  }

  /** A comma-free string gives a single tag, its trim, unless it is blank. */
  lemma ParseTagsPiece(s: string)
    requires ',' !in s
    ensures ParseTags(s) == if Trim(s) == [] then [] else [Trim(s)]
  {
    SplitJoin([s], ',');
    assert Split(s, ',') == [s];
    assert TrimAll([s]) == [Trim(s)];
  }

  /** Every tag is the trim of some comma-separated piece. */
  lemma ParseTagsFromPieces(s: string, tag: string)
    requires tag in ParseTags(s)
    ensures exists p :: p in Split(s, ',') && tag == Trim(p)
  {
    var parts := Split(s, ',');
    var trimmed := TrimAll(parts);
    assert tag in trimmed;
    var k :| 0 <= k < |trimmed| && trimmed[k] == tag;
    assert parts[k] in parts;
  }

  /** Every piece that is not blank contributes its trim as a tag. */
  lemma PiecesToParseTags(s: string, p: string)
    requires p in Split(s, ',') && Trim(p) != []
    ensures Trim(p) in ParseTags(s)
  {
    var parts := Split(s, ',');
    var trimmed := TrimAll(parts);
    var k :| 0 <= k < |parts| && parts[k] == p;
    assert trimmed[k] == Trim(p);
    assert Trim(p) in trimmed;
  }
}

=== FILE: todo.dfy ===
/** The todo record of the client and its defaults. */
module TodoModel {
  import opened Wrappers

  /** The three priorities a todo may carry. */
  datatype Priority = Low | Medium | High

  /** A todo item. `id` is the primary key for all reconciliation. `dueDate`
      is the raw date value, kept opaque. `createdAt` and `updatedAt` are
      server timestamps; the empty string means "not set". */
  datatype Todo = Todo(
    id: string,
    text: string,
    description: string,
    done: bool,
    dueDate: Option<string>,
    priority: Priority,
    tags: seq<string>,
    createdAt: string,
    updatedAt: string)

  /** The string a priority is stored and sent as. */
  function PriorityName(p: Priority): string {
    match p
    case Low => "low"
    case Medium => "medium"
    case High => "high"
  }

  /** Reads a stored priority string; anything outside the three names is
      rejected. */
  function ParsePriority(s: string): (p: Option<Priority>)
    ensures p.Some? <==> s in {"low", "medium", "high"}
  {
    if s == "low" then Some(Low)
    else if s == "medium" then Some(Medium)
    else if s == "high" then Some(High)
    else None
  }

  /** Priority names and priorities are in one-to-one correspondence. */
  lemma PriorityRoundTrip(p: Priority, s: string)
    ensures ParsePriority(PriorityName(p)) == Some(p)
    ensures ParsePriority(s) == Some(p) ==> PriorityName(p) == s
  {
  }

  /** The template every new todo starts from. */
  function DefaultTodo(): (t: Todo)
    ensures !t.done
    ensures t.priority == Medium
    ensures t.description == [] && t.tags == []
    ensures t.dueDate == None
    ensures t.id == [] && t.text == [] && t.createdAt == [] && t.updatedAt == []
  {
    Todo("", "", "", false, None, Medium, [], "", "")
  }
}

=== FILE: todo_list.dfy ===
/** The id-keyed operations on the ordered todo list that both versions of
    the client use: `some`, `find`, `map` and `filter` keyed by `id`. */
module TodoList {
  import opened Wrappers
  import opened TodoModel

  /** The ids of a list, in list order. */
  function Ids(s: seq<Todo>): (ids: seq<string>)
    ensures |ids| == |s|
    ensures forall i :: 0 <= i < |s| ==> ids[i] == s[i].id
  {
    if s == [] then [] else [s[0].id] + Ids(s[1..])
  }

  /** `s.some(t => t.id === id)`. */
  predicate HasId(s: seq<Todo>, id: string) {
    exists t :: t in s && t.id == id
  }

  /** An id is present exactly when it occurs among the list's ids. */
  lemma {:induction false} HasIdInIds(s: seq<Todo>, id: string)
    ensures HasId(s, id) <==> id in Ids(s)
  {
    if HasId(s, id) {
      var t :| t in s && t.id == id;
      var i :| 0 <= i < |s| && s[i] == t;
      assert Ids(s)[i] == id;
    }
    if id in Ids(s) {
      var i :| 0 <= i < |Ids(s)| && Ids(s)[i] == id;
      assert s[i] in s;
    }
  }

  /** No two items share an id. */
  predicate UniqueIds(s: seq<Todo>) {
    forall i, j :: 0 <= i < j < |s| ==> s[i].id != s[j].id
  }

  /** `s.find(t => t.id === id)`: the first item with that id. */
  function Find(s: seq<Todo>, id: string): (r: Option<Todo>)
    ensures r.None? <==> !HasId(s, id)
    ensures r.Some? ==> r.value.id == id
    ensures r.Some? ==> exists i :: 0 <= i < |s| && s[i] == r.value && !HasId(s[..i], id)
  {
    if s == [] then None
    else if s[0].id == id then
      assert s[..0] == [];
      Some(s[0])
    else
      var r := Find(s[1..], id);
      if r.Some? then
        var i :| 0 <= i < |s[1..]| && s[1..][i] == r.value && !HasId(s[1..][..i], id);
        assert s[..i + 1] == [s[0]] + s[1..][..i];
        assert s[i + 1] == r.value;
        r
      else
        r
  }

  /** `s.map(t => t.id === id ? u : t)`: every item with the id becomes `u`,
      all other items are kept in place. */
  function ReplaceById(s: seq<Todo>, id: string, u: Todo): (r: seq<Todo>)
    ensures |r| == |s|
    ensures forall i :: 0 <= i < |s| && s[i].id != id ==> r[i] == s[i]
    ensures forall i :: 0 <= i < |s| && s[i].id == id ==> r[i] == u
  {
    if s == [] then []
    else [if s[0].id == id then u else s[0]] + ReplaceById(s[1..], id, u)
  }

  /** `s.filter(t => t.id !== id)`. */
  function RemoveById(s: seq<Todo>, id: string): (r: seq<Todo>)
    ensures forall t :: t in r <==> t in s && t.id != id
    ensures |r| <= |s|
  {
    if s == [] then []
    else (if s[0].id == id then [] else [s[0]]) + RemoveById(s[1..], id)
  }

  /** Filtering a list with one item in front keeps or drops that item and
      filters the rest. */
  lemma RemoveByIdCons(x: Todo, s: seq<Todo>, id: string)
    ensures RemoveById([x] + s, id) == (if x.id == id then [] else [x]) + RemoveById(s, id)
  {
    assert ([x] + s)[0] == x && ([x] + s)[1..] == s;
  }

  /** Filtering distributes over concatenation: the kept items keep their
      relative order. */
  lemma {:induction false} RemoveByIdConcat(a: seq<Todo>, b: seq<Todo>, id: string)
    ensures RemoveById(a + b, id) == RemoveById(a, id) + RemoveById(b, id)
  {
    if a == [] {
      assert a + b == b;
    } else {
      var x, rest := a[0], a[1..];
      assert a == [x] + rest && a + b == [x] + (rest + b);
      RemoveByIdConcat(rest, b, id);
      RemoveByIdCons(x, rest + b, id);
      RemoveByIdCons(x, rest, id);
    }
  }

  /** Removing an id that is not present changes nothing. */
  lemma {:induction false} RemoveByIdAbsent(s: seq<Todo>, id: string)
    requires !HasId(s, id)
    ensures RemoveById(s, id) == s
  {
    if s != [] {
      assert s[0] in s;
      assert forall t :: t in s[1..] ==> t in s;
      RemoveByIdAbsent(s[1..], id);
    }
  }

  /** Removing an id twice is removing it once. */
  lemma RemoveByIdIdempotent(s: seq<Todo>, id: string)
    ensures RemoveById(RemoveById(s, id), id) == RemoveById(s, id)
  {
    RemoveByIdAbsent(RemoveById(s, id), id);
  }

  /** Prepending keeps ids unique exactly when the new id is fresh. */
  lemma UniqueCons(t: Todo, s: seq<Todo>)
    ensures UniqueIds([t] + s) <==> !HasId(s, t.id) && UniqueIds(s)
  {
    var l := [t] + s;
    if UniqueIds(l) {
      forall u | u in s
        ensures u.id != t.id
      {
        var j :| 0 <= j < |s| && s[j] == u;
        assert l[0] == t && l[j + 1] == u;
      }
      forall i, j | 0 <= i < j < |s|
        ensures s[i].id != s[j].id
      {
        assert l[i + 1] == s[i] && l[j + 1] == s[j];
      }
    }
    if !HasId(s, t.id) && UniqueIds(s) {
      forall i, j | 0 <= i < j < |l|
        ensures l[i].id != l[j].id
      {
        if i == 0 {
          assert l[j] == s[j - 1] && l[j] in s;
        } else {
          assert l[i] == s[i - 1] && l[j] == s[j - 1];
        }
      }
    }
  }

  /** Filtering keeps ids unique. */
  lemma {:induction false} RemoveByIdUnique(s: seq<Todo>, id: string)
    ensures UniqueIds(s) ==> UniqueIds(RemoveById(s, id))
  {
    if s != [] && UniqueIds(s) {
      UniqueCons(s[0], s[1..]);
      assert [s[0]] + s[1..] == s;
      RemoveByIdUnique(s[1..], id);
      if s[0].id != id {
        UniqueCons(s[0], RemoveById(s[1..], id));
      } else {
        assert RemoveById(s, id) == RemoveById(s[1..], id);
      }
    }
  }

  /** Replacing an id that is not present changes nothing. */
  lemma ReplaceByIdAbsent(s: seq<Todo>, id: string, u: Todo)
    requires !HasId(s, id)
    ensures ReplaceById(s, id, u) == s
  {
    var r := ReplaceById(s, id, u);
    forall i | 0 <= i < |s|
      ensures r[i] == s[i]
    {
      assert s[i] in s;
    }
  }

  /** Replacing an item by one with the same id keeps the id sequence, and
      so keeps ids unique. */
  lemma ReplaceByIdKeepsIds(s: seq<Todo>, id: string, u: Todo)
    requires u.id == id
    ensures Ids(ReplaceById(s, id, u)) == Ids(s)
    ensures UniqueIds(s) ==> UniqueIds(ReplaceById(s, id, u))
  {
    var r := ReplaceById(s, id, u);
    assert forall i :: 0 <= i < |s| ==> r[i].id == s[i].id;
  }

  /** Replacing twice with the same item is replacing once. */
  lemma ReplaceByIdIdempotent(s: seq<Todo>, id: string, u: Todo)
    requires u.id == id
    ensures ReplaceById(ReplaceById(s, id, u), id, u) == ReplaceById(s, id, u)
  {
  }

  /** With unique ids, `find` returns the one item carrying the id. */
  lemma FindUnique(s: seq<Todo>, i: int)
    requires UniqueIds(s) && 0 <= i < |s|
    ensures Find(s, s[i].id) == Some(s[i])
  {
    var id := s[i].id;
    assert s[i] in s;
    var r := Find(s, id);
    var k :| 0 <= k < |s| && s[k] == r.value && !HasId(s[..k], id);
    assert k == i;
  }

  /** With unique ids, putting the old item back undoes a replacement. */
  lemma ReplaceByIdUndo(s: seq<Todo>, k: int, u: Todo)
    requires UniqueIds(s) && 0 <= k < |s| && u.id == s[k].id
    ensures ReplaceById(ReplaceById(s, u.id, u), u.id, s[k]) == s
  {
    var r := ReplaceById(ReplaceById(s, u.id, u), u.id, s[k]);
    forall i | 0 <= i < |s|
      ensures r[i] == s[i]
    {
      if i != k {
        assert s[i].id != s[k].id;
      }
    }
  }
}

=== FILE: wrappers.dfy ===
/** Small failure-carrying datatypes shared by the whole model. */
module Wrappers {

  /** A value that may be absent: JavaScript's `null`, a missing storage key,
      or the `undefined` that `Array.prototype.find` returns. */
  datatype Option<+T> = None | Some(value: T)

  /** The outcome of one call to the remote todo service: the resolved
      response body, or a rejected promise (network error, HTTP error). */
  datatype Reply<+T> = Ok(value: T) | Err
}
